=== FILE: README.md ===
# Personal finance ledger: a verified model

This project models the core of a command-line personal finance tracker in Dafny.
The tracker keeps income and expense transactions in the flat file
`finance_data.csv`, with the header `date,amount,category,description` and dates
written `dd-mm-yyyy`. It appends new transactions, and it answers date-range
queries with the matching rows plus total income, total expense and net savings.

The model has these parts:

- `Calendar` (calendar.dfy): calendar days as `datetime.date` sees them. It covers leap years, month lengths, the years 1 to 9999, the day number `toordinal`, and the (year, month, day) order.
- `DateFormat` (dateformat.dfy): `strptime` and `strftime` for `%d-%m-%Y`. `strptime` is built from the directive patterns CPython uses: `%d` accepts `05`, `5` and ` 5`; `%m` accepts `03` and `3`; `%Y` needs exactly four digits. The day must then exist.
- `DataEntry` (dataentry.dfy): the prompt rules of `get_date`, `get_amount` and `get_category`, written as validators that return `Option`. One loop, `Reprompt`, stands for the recursive re-prompting all three prompts share.
- `Seqs` (seqs.dfy): order-preserving selection. This is the shape of the pandas boolean mask.
- `Ledger` (ledger.dfy): the store (`initialize_csv`, `add_entry`, `add`) and the query `get_transactions` with its summary.
- `Wrappers` (wrappers.dfy): `Option` and `Result`.

Stored records keep their date as text, just as the file does. The query converts each stored date and each bound with the same `%d-%m-%Y` parser and compares days, not texts. `DateFormat.TextOrderIsNotChronological` shows why the texts cannot be compared directly.

The model follows the code except where noted below and under "## Left out". The first point below is one such departure. The others describe behaviour that a reader might not expect:

- main.py:44 reads the column `"Date"`, but the header written at main.py:9 and main.py:18 is `date`. As written, every query raises KeyError. Here the model departs from the code: it filters on `date`, which is evidently what was meant, and says so in a comment in ledger.dfy.
- An empty range might be expected to give zero sums. The code (main.py:51-52) prints no summary at all when nothing matches. So `Report.summary` is `None` exactly when no rows are selected.
- `add_entry` on a missing file opens it in append mode. That creates the file without a header line, which is the `Headerless` store. Unless the file already lacks a header, `add`, which initializes first, leaves a headed ledger.
- pandas converts the stored dates into nanosecond Timestamps (main.py:44). These hold only the days from 22-09-1677 to 11-04-2262. The date prompt accepts a day outside that span, such as 01-01-3000, and `add` stores it. From then on every query raises OutOfBoundsDatetime, which the model reports as `BadStoredDate`.
- `get_category` upper-cases its input with `str.upper()`. Besides `i` and `e`, it therefore also accepts the dotless `ı` (U+0131) as Income.

## Model

| member | source | states |
|---|---|---|
| Calendar.LessEqIsChronological | main.py:44-48 | For real calendar days, the (year, month, day) order holds exactly when the day numbers are ordered. So comparing converted dates is chronological. |
| Calendar.DaysInMonth | data_entry.py:14 | A month has 28 to 31 days, and February has 29 exactly in leap years. |
| DateFormat.Format | data_entry.py:15 | `strftime("%d-%m-%Y")` gives ten characters: two-digit day, dash, two-digit month, dash, digits of the year. |
| DateFormat.Parse | data_entry.py:14 | Whatever `strptime("%d-%m-%Y")` accepts is a real calendar day in years 1 to 9999. |
| DateFormat.ParseExactlySpellings | data_entry.py:13-17 | `strptime` yields day d if and only if d is a real calendar day and the text is one of d's spellings. Day spellings are two digits, or below 10 also one digit or space-digit. Month spellings are two digits, or below 10 also one digit. The year is four digits. Everything else is rejected. |
| DateFormat.ParseFormat | data_entry.py:14-15 | Reading back the canonical text of a day gives that same day. |
| DateFormat.FormatParse | data_entry.py:14-15 | Re-formatting an accepted text gives a canonical text that reads as the same day. |
| DateFormat.TextOrderIsNotChronological | main.py:44-46 | 2 January 2024 is before 1 February 2024, yet its `dd-mm-yyyy` text sorts after it. The text order is not the date order. |
| DataEntry.ValidateCategory | data_entry.py:36-38 | An accepted category is always "Income" or "Expense". |
| DataEntry.ValidateCategoryExactly | data_entry.py:36-41 | The category rule yields Income exactly for `I`, `i` or `ı`, and Expense exactly for `E` or `e`. Every other input is rejected. |
| DataEntry.CheckAmountAsWritten | data_entry.py:24-27 | As written, the check returns the value unchanged. On finite values it accepts exactly those above zero. |
| DataEntry.AmountCheckAcceptsNaN | data_entry.py:25-27 | As written, NaN and positive infinity pass the `amount <= 0` check. |
| DataEntry.ValidateAmount | data_entry.py:25-27 | The corrected rule accepts an amount only if it is finite and strictly positive, and returns that value. |
| DataEntry.AmountRulesAgreeOnFinite | data_entry.py:25-27 | The corrected and as-written rules agree on every finite input. They differ exactly on NaN and positive infinity. |
| DataEntry.ValidateDate | data_entry.py:10-15 | An accepted date comes back as the canonical text of a real calendar day. |
| DataEntry.ValidateDateExactly | data_entry.py:13-17 | A non-empty text is accepted exactly when it parses. It then yields the canonical text of day d if and only if the text is a spelling of d. |
| DataEntry.ValidateDateEmpty | data_entry.py:10-11 | Empty input gives today's canonical date when a default is allowed. Otherwise it is rejected. |
| DataEntry.ValidateDateIdempotent | data_entry.py:14-15 | Validating an accepted date again returns it unchanged, with or without a default. |
| DataEntry.Reprompt | data_entry.py:16-18 | Re-prompting stops at the first accepted input and returns its value. Every earlier input was rejected. It ends with nothing only when every input was rejected. |
| DataEntry.GetDate | data_entry.py:8-18 | The date finally returned is the canonical text of a real day. It is the value of the first accepted line, and every earlier line was rejected. |
| DataEntry.GetAmountAsWritten | data_entry.py:22-30 | As written, the amount finally returned is the first input `amount <= 0` does not reject, and every earlier input was rejected. It is NaN, positive infinity or a finite amount above zero. |
| DataEntry.GetAmount | data_entry.py:22-30 | With the corrected rule, the amount finally returned is finite and strictly positive. It is the first acceptable input, and every earlier input was rejected. |
| DataEntry.GetCategory | data_entry.py:35-41 | The category finally returned is Income or Expense. It is the value of the first accepted line, and every earlier line was rejected. |
| Seqs.Filter | main.py:48-49 | The mask keeps at most the rows it was given, and each kept row passes the test. |
| Seqs.FilterExact | main.py:48-49 | The mask result is the input read at increasing positions. A position is among them exactly when its row passes the test. |
| Seqs.FilterMembership | main.py:48-49 | A row survives the mask exactly when it is in the input and passes the test. |
| Ledger.InitializeCsv | main.py:14-19 | Initializing creates an empty headed ledger only when there is no file. An existing file is left unchanged. |
| Ledger.InitializeIdempotent | main.py:14-19 | Initializing twice is the same as initializing once. |
| Ledger.AddEntry | main.py:22-36 | Appending yields the old records followed by exactly the new one. No earlier record changes, and the header state is kept. |
| Ledger.Add | main.py:76-82 | Unless the file already lacks a header, initializing then appending yields a headed ledger of the old records plus the new one, even when no file existed. A headerless file stays headerless, with the new record appended. |
| Ledger.AddFromPrompts | main.py:74-82 | The ledger is always initialized. A record is appended exactly when every prompt gets an accepted input. Its date, amount and category are then the first accepted inputs of their prompts, and every earlier input was rejected. The record is well formed and carries the given description. Well-formed ledgers stay well formed. |
| Ledger.AddEntryWithoutInitialize | main.py:33-36 | Appending to a missing file creates it without a header, and the query cannot read that file. |
| Ledger.GetTransactions | main.py:41-69 | The query succeeds exactly on a headed ledger whose stored dates all convert and whose two bounds parse. A stored date converts (`Ledger.Converts`, main.py:44) when it parses and fits a nanosecond Timestamp. A missing file is FileNotFound. A report has a summary exactly when rows were selected. |
| Ledger.QueryFailsBeyondTimestamps | main.py:44 | Once `add` has stored the day 01-01-3000, which the date prompt accepts, every query of that ledger fails at the date conversion. |
| Ledger.InRangeIsChronological | main.py:44-48 | The mask of main.py:48, `Ledger.InRange`, compares day numbers: start ≤ day ≤ end. |
| Ledger.QueryReturnsRange | main.py:45-49 | The query returns the stored rows at increasing positions. A position is selected exactly when its day lies between start and end, both ends included. The summary is that of the selected rows. |
| Ledger.QueryMembership | main.py:48-49 | A row is returned exactly when it is stored and its day is in range. |
| Ledger.QueryEmptyRange | main.py:48-52 | When start is after end, no rows are returned and no summary is produced. |
| Ledger.QueryFreshLedger | main.py:41-52 | Querying a freshly initialized ledger over any two days returns no rows. |
| Ledger.AddThenQuery | main.py:22-49 | After `add` of any record whose date converts, a query over a range that covers its day returns the rows the range selected before, followed by the new record. |
| Ledger.TotalIsCategorySum | main.py:63-64 | A category total (`Ledger.Total`, used by `Ledger.Summarize`) is the sum over all rows of the amount where the category matches and zero elsewhere. |
| Ledger.NetIsSignedSum | main.py:68 | The net savings of `Ledger.Summarize` is income minus expense: Income rows add, Expense rows subtract, other rows add nothing. |
| Ledger.SummarizeSnoc | main.py:63-68 | One more Income row raises income and net by its amount. One more Expense row raises expense and lowers net by it. A row of any other category changes nothing. |
| Ledger.TotalsNonNegative | main.py:63-64 | When every amount is positive, total income and total expense are both at least zero. |

## Left out

- File I/O and CSV encoding: `read_csv`, `to_csv` and `DictWriter` quoting are not modelled. The store holds the record values themselves, so in the model a record reads back exactly as written. In the source that holds only approximately: for example, `read_csv` reads an empty description back as NaN.
- Reading a headerless file: pandas would take the first record as the header. The model reports the error `NoHeader` instead.
- Ledger.GetTransactions: stored dates are parsed with the same rules as `strptime`. pandas' own parser may treat non-canonical text differently, but the prompts only ever store canonical text. Its Timestamp range is modelled as that of pandas 1.x and 2.x with nanosecond resolution. Bounds outside that range are compared as days, although how pandas compares them depends on its version.
- Console I/O: the prompts, printed messages and printed tables are left out. The model returns values, not text. `get_description` returns its input unchanged, so it appears only as the `description` parameter.
- End of input: Python raises EOFError. The model treats running out of inputs as `None`.
- Recursion depth: each re-prompt is a recursive call, so after about a thousand rejected inputs Python raises RecursionError. `DataEntry.Reprompt` is a loop without that limit.
- Amount text: text that `float()` cannot read is rejected and re-prompted. `DataEntry.GetAmount` takes the values `float()` produces, so such text has no counterpart in the model.
- `datetime.today()` becomes the parameter `today`.
- Floating point: `float(...)` parsing, rounding and the `.2f` display are left out. Amounts are exact reals. The source's float sums only approximate the totals stated here.
- DateFormat.Parse: only ASCII digits are modelled. Python's `\d` also matches other Unicode decimal digits.
- DateFormat.Format: the year is always padded to four digits. On C libraries that do not pad `%Y`, years below 1000 come back shorter and would not parse again.
- DataEntry.Upper: only ASCII letters and the dotless i are mapped, one character at a time. Python's `str.upper()` can also lengthen a text (`"ß".upper() == "SS"`). Neither that nor the other Unicode case mappings produces `I` or `E`, so the set of accepted categories is unaffected.
- DataEntry.GetAmount: it uses the corrected amount rule, not the rule as written. As written, `get_amount` can return NaN or positive infinity (see `DataEntry.GetAmountAsWritten` and Findings).
- Ledger.AddFromPrompts: it uses the corrected amount rule, so it never stores a NaN or infinite amount. As written, `add()` stores whatever `get_amount` returns, and `Transaction.amount` is a real that cannot hold those values.
- `plot_transactions` (pandas resampling and matplotlib drawing) and the `main` menu loop are left out. Both are interactive presentation only.

## Findings

| source | as written | input that shows it | evidently intended | confidence | as-written member | corrected member |
|---|---|---|---|---|---|---|
| data_entry.py:25-27 | the only check is `amount <= 0`, and every comparison with NaN is false | the amount `nan` (likewise `inf`) is accepted and stored in the ledger | only finite amounts strictly above zero are accepted | high; not executed | DataEntry.AmountCheckAcceptsNaN | DataEntry.ValidateAmount |

=== FILE: calendar.dfy ===
/**
 Calendar days as Python's `datetime.date` sees them: the proleptic Gregorian
 calendar for the years 1 through 9999, ordered chronologically.
 */
module Calendar {

  const MinYear := 1
  const MaxYear := 9999

  datatype Date = Date(year: int, month: int, day: int)

  predicate IsLeapYear(y: int) {
    y % 4 == 0 && (y % 100 != 0 || y % 400 == 0)
  }

  function YearLength(y: int): int {
    if IsLeapYear(y) then 366 else 365
  }

  function DaysInMonth(y: int, m: int): (n: int)
    requires 1 <= m <= 12
    ensures 28 <= n <= 31
    ensures m == 2 ==> (n == 29 <==> IsLeapYear(y))
  {
    if m == 2 then (if IsLeapYear(y) then 29 else 28)
    else if m == 4 || m == 6 || m == 9 || m == 11 then 30
    else 31
  }

  /** A day `datetime.date(year, month, day)` accepts without raising ValueError. */
  predicate ValidDate(d: Date) {
    && MinYear <= d.year <= MaxYear
    && 1 <= d.month <= 12
    && 1 <= d.day <= DaysInMonth(d.year, d.month)
  }

  /** Days in the years before `y`, by the closed form datetime uses. */
  function DaysBeforeYear(y: int): int
    requires y >= 1
  {
    var p := y - 1;
    p * 365 + p / 4 - p / 100 + p / 400
  }

  /** Days in the months of year `y` before month `m`, from datetime's cumulative table. */
  function DaysBeforeMonth(y: int, m: int): int
    requires 1 <= m <= 12
  {
    var table := [0, 0, 31, 59, 90, 120, 151, 181, 212, 243, 273, 304, 334];
    table[m] + (if m > 2 && IsLeapYear(y) then 1 else 0)
  }

  /** The day number of `d`, 1 for 0001-01-01, as `date.toordinal()` computes it. */
  function Ordinal(d: Date): int
    requires ValidDate(d)
  {
    DaysBeforeYear(d.year) + DaysBeforeMonth(d.year, d.month) + d.day
  }

  /** Lexicographic order on (year, month, day), the order datetime comparisons use. */
  predicate LessEq(a: Date, b: Date) {
    || a.year < b.year
    || (a.year == b.year && a.month < b.month)
    || (a.year == b.year && a.month == b.month && a.day <= b.day)
  }

  /** A year adds exactly its own length to the day count. */
  lemma YearStep(y: int)
    requires y >= 1
    ensures DaysBeforeYear(y + 1) == DaysBeforeYear(y) + YearLength(y)
  {
    var p := y - 1;
    assert (p + 1) / 4 == p / 4 + (if y % 4 == 0 then 1 else 0);
    assert (p + 1) / 100 == p / 100 + (if y % 100 == 0 then 1 else 0);
    assert (p + 1) / 400 == p / 400 + (if y % 400 == 0 then 1 else 0);
  }

  /** Every later year starts after the whole of an earlier one. */
  lemma {:induction false} YearsAreOrdered(a: int, b: int)
    requires 1 <= a < b
    ensures DaysBeforeYear(a) + YearLength(a) <= DaysBeforeYear(b)
    decreases b - a
  {
    YearStep(a);
    if a + 1 < b {
      YearsAreOrdered(a + 1, b);
    }
  }

  /** A month adds exactly its own length, and December ends the year. */
  lemma MonthStep(y: int, m: int)
    requires 1 <= m <= 12
    ensures m < 12 ==> DaysBeforeMonth(y, m + 1) == DaysBeforeMonth(y, m) + DaysInMonth(y, m)
    ensures m == 12 ==> DaysBeforeMonth(y, m) + DaysInMonth(y, m) == YearLength(y)
  {
  }

  /** Every later month of the same year starts after the whole of an earlier one. */
  lemma {:induction false} MonthsAreOrdered(y: int, a: int, b: int)
    requires 1 <= a <= b <= 12
    ensures DaysBeforeMonth(y, a) + DaysInMonth(y, a) <= DaysBeforeMonth(y, b) + DaysInMonth(y, b)
    ensures a < b ==> DaysBeforeMonth(y, a) + DaysInMonth(y, a) <= DaysBeforeMonth(y, b)
    decreases b - a
  {
    MonthStep(y, a);
    if a < b {
      MonthsAreOrdered(y, a + 1, b);
    }
  }

  /** A valid day lies inside its year: its day of the year is between 1 and the year's length. */
  lemma DayOfYearBounds(d: Date)
    requires ValidDate(d)
    ensures 1 <= DaysBeforeMonth(d.year, d.month) + d.day <= YearLength(d.year)
  {
    MonthsAreOrdered(d.year, d.month, 12);
    MonthStep(d.year, 12);
  }

  /**
   The lexicographic order on valid dates is the chronological one: `a` comes no
   later than `b` exactly when its day number is no larger.
   */
  lemma LessEqIsChronological(a: Date, b: Date)
    requires ValidDate(a) && ValidDate(b)
    ensures LessEq(a, b) <==> Ordinal(a) <= Ordinal(b)
  {
    DayOfYearBounds(a);
    DayOfYearBounds(b);
    if a.year < b.year {
      YearsAreOrdered(a.year, b.year);
    } else if b.year < a.year {
      YearsAreOrdered(b.year, a.year);
    } else if a.month < b.month {
      MonthsAreOrdered(a.year, a.month, b.month);
    } else if b.month < a.month {
      MonthsAreOrdered(a.year, b.month, a.month);
    }
  }

  /** The order is transitive. */
  lemma LessEqTransitive(a: Date, b: Date, c: Date)
    requires LessEq(a, b) && LessEq(b, c)
    ensures LessEq(a, c)
  {
  }
}

=== FILE: dataentry.dfy ===
/**
 The prompt collector (data_entry.py). Each prompt reads a line, validates it and,
 on rejection, prompts again. Here each rule is a pure validator returning
 `None` for a rejected input, and the re-prompting is one loop over the lines
 the user types.
 */
module DataEntry {
  import opened Wrappers
  import opened Calendar
  import opened DateFormat

  const Income := "Income"
  const Expense := "Expense"

  /** CATERGORY_OPTIONS: the code typed at the prompt and the category it stands for. */
  const CategoryOptions: map<string, string> := map["I" := Income, "E" := Expense]

  /** U+0131, LATIN SMALL LETTER DOTLESS I, whose upper case is `I`. */
  const DotlessI := '\U{0131}'

  /**
   `str.upper()` on one character. ASCII letters and the dotless i are mapped;
   other Unicode case mappings are not modelled (none of them yields `I` or `E`).
   */
  function UpperChar(c: char): char {
    if 'a' <= c <= 'z' then (c as int - 32) as char
    else if c == DotlessI then 'I'
    else c
  }

  // The ensures expose the comprehension to ValidateCategoryExactly; they are proof plumbing, not a modelling claim.
  function Upper(s: string): (r: string)
    ensures |r| == |s|
    ensures forall i :: 0 <= i < |s| ==> r[i] == UpperChar(s[i])
  {
    seq(|s|, i requires 0 <= i < |s| => UpperChar(s[i]))
  }

  // ---------------------------------------------------------------- category

  /** get_category's rule (data_entry.py:36-38): upper-case the input and look it up. */
  function ValidateCategory(text: string): (r: Option<string>)
    ensures r.Some? ==> r.value == Income || r.value == Expense
  {
    var key := Upper(text);
    if key in CategoryOptions then Some(CategoryOptions[key]) else None
  }

  /**
   The category prompt accepts `I` and `E` in either case (and the dotless i,
   whose upper case is `I`), maps them to Income and Expense, and rejects
   every other text.
   */
  lemma ValidateCategoryExactly(text: string, c: string)
    ensures ValidateCategory(text) == Some(c) <==>
      || (text in {"I", "i", [DotlessI]} && c == Income)
      || (text in {"E", "e"} && c == Expense)
  {
    var key := Upper(text);
    if key == "I" || key == "E" {
      assert |text| == 1;
      assert text == [text[0]];
    }
    if text in {"I", "i", [DotlessI]} {
      assert key == "I";
    }
    if text in {"E", "e"} {
      assert key == "E";
    }
  }

  // ---------------------------------------------------------------- amount

  /** A Python float as `float(input(...))` produces it (data_entry.py:24). */
  datatype Float = Finite(value: real) | PositiveInfinity | NegativeInfinity | NaN

  /** `amount <= 0` under IEEE 754: every comparison with NaN is false. */
  predicate AtMostZero(x: Float) {
    match x
    case Finite(v) => v <= 0.0
    case NegativeInfinity => true
    case PositiveInfinity => false
    case NaN => false
  }

  /** get_amount's check as written (data_entry.py:25-27): reject only when `amount <= 0`. */
  function CheckAmountAsWritten(x: Float): (r: Option<Float>)
    ensures r.Some? ==> r.value == x
    ensures x.Finite? ==> (r.Some? <==> x.value > 0.0)
  {
    if AtMostZero(x) then None else Some(x)
  }

  /** As written, the amount check lets NaN and positive infinity through. */
  lemma AmountCheckAcceptsNaN()
    ensures CheckAmountAsWritten(NaN) == Some(NaN)
    ensures CheckAmountAsWritten(PositiveInfinity) == Some(PositiveInfinity)
  {
  }

  /** The evidently intended amount rule: a finite amount strictly above zero. */
  function ValidateAmount(x: Float): (r: Option<real>)
    ensures r.Some? ==> r.value > 0.0 && x == Finite(r.value)
  {
    match x
    case Finite(v) => if v > 0.0 then Some(v) else None
    case _ => None
  }

  /**
   The corrected rule agrees with the code as written on every finite input,
   and differs from it exactly on NaN and positive infinity.
   */
  lemma AmountRulesAgreeOnFinite(x: Float)
    ensures ValidateAmount(x).Some? ==> CheckAmountAsWritten(x) == Some(Finite(ValidateAmount(x).value))
    ensures CheckAmountAsWritten(x).Some? && ValidateAmount(x).None? <==> x == NaN || x == PositiveInfinity
    ensures x.Finite? ==> (ValidateAmount(x).Some? <==> CheckAmountAsWritten(x).Some?)
  {
  }

  // ---------------------------------------------------------------- date

  /**
   get_date's rule (data_entry.py:10-15): with `allowDefault`, the empty text
   stands for today; otherwise the text must parse under `%d-%m-%Y` and comes
   back re-formatted. `today` stands for `datetime.today()`.
   */
  function ValidateDate(text: string, allowDefault: bool, today: Date): (r: Option<string>)
    requires ValidDate(today)
    ensures r.Some? ==> Parse(r.value).Some? && Format(Parse(r.value).value) == r.value
  {
    if allowDefault && text == "" then
      ParseFormat(today);
      Some(Format(today))
    else
      match Parse(text)
      case Some(d) =>
        ParseFormat(d);
        Some(Format(d))
      case None => None
  }

  /**
   A non-empty text is accepted exactly when it names a real calendar day, and
   the result is the canonical text of that same day.
   */
  lemma ValidateDateExactly(text: string, allowDefault: bool, today: Date, d: Date)
    requires ValidDate(today) && text != ""
    ensures ValidDate(d) && ValidateDate(text, allowDefault, today) == Some(Format(d))
      <==> ValidDate(d) && text in Spellings(d)
    ensures ValidateDate(text, allowDefault, today).Some? <==> Parse(text).Some?
  {
    ParseExactlySpellings(text, d);
    if ValidDate(d) && ValidateDate(text, allowDefault, today) == Some(Format(d)) {
      var e := Parse(text).value;
      ParseFormat(d);
      ParseFormat(e);
    }
  }

  /** The empty text is today's date when a default is allowed and rejected otherwise. */
  lemma ValidateDateEmpty(today: Date)
    requires ValidDate(today)
    ensures ValidateDate("", true, today) == Some(Format(today))
    ensures ValidateDate("", false, today) == None
  {
    ParseEmpty();
  }

  /** Validating an accepted date again returns it unchanged. */
  lemma ValidateDateIdempotent(text: string, allowDefault: bool, today: Date, again: bool)
    requires ValidDate(today)
    requires ValidateDate(text, allowDefault, today).Some?
    ensures var c := ValidateDate(text, allowDefault, today).value;
      ValidateDate(c, again, today) == Some(c)
  {
    var c := ValidateDate(text, allowDefault, today).value;
    assert c != "" by {
      assert |Format(Parse(c).value)| == 10;
    }
  }

  // ---------------------------------------------------------------- re-prompting

  /**
   The re-prompting shared by get_date, get_amount and get_category: read the
   inputs one at a time until `validate` accepts one. `used` counts the inputs
   read. The recursion ends only on an accepted input; `None` means the inputs
   ran out first.
   */
  method Reprompt<I, T>(inputs: seq<I>, validate: I -> Option<T>) returns (r: Option<T>, used: nat)
    ensures used <= |inputs|
    ensures r.Some? ==> 0 < used && validate(inputs[used - 1]) == r
    ensures forall k :: 0 <= k < used - 1 ==> validate(inputs[k]).None?
    ensures r.None? ==> used == |inputs| && forall k :: 0 <= k < |inputs| ==> validate(inputs[k]).None?
  {
    r, used := None, 0;
    while used < |inputs|
      invariant used <= |inputs|
      invariant forall k :: 0 <= k < used ==> validate(inputs[k]).None?
    {
      var v := validate(inputs[used]);
      used := used + 1;
      if v.Some? {
        return v, used;
      }
    }
  }

  /** get_date: the date finally returned is the canonical text of a real calendar day. */
  method GetDate(lines: seq<string>, allowDefault: bool, today: Date) returns (r: Option<string>, used: nat)
    requires ValidDate(today)
    ensures used <= |lines|
    ensures r.Some? ==> 0 < used && Parse(r.value).Some? && Format(Parse(r.value).value) == r.value
    ensures r.Some? ==> r == ValidateDate(lines[used - 1], allowDefault, today)
    ensures forall k :: 0 <= k < used - 1 ==> ValidateDate(lines[k], allowDefault, today).None?
    ensures r.None? ==> forall k :: 0 <= k < |lines| ==> ValidateDate(lines[k], allowDefault, today).None?
  {
    r, used := Reprompt(lines, text => ValidateDate(text, allowDefault, today));
  }

  /** get_amount, with the corrected rule: the amount finally returned is above zero. */
  method GetAmount(inputs: seq<Float>) returns (r: Option<real>, used: nat)
    ensures used <= |inputs|
    ensures r.Some? ==> 0 < used && r.value > 0.0 && inputs[used - 1] == Finite(r.value)
    ensures forall k :: 0 <= k < used - 1 ==> ValidateAmount(inputs[k]).None?
    ensures r.None? ==> forall k :: 0 <= k < |inputs| ==> ValidateAmount(inputs[k]).None?
  {
    r, used := Reprompt(inputs, ValidateAmount);
  }

  /**
   get_amount as written (data_entry.py:22-30): the value finally returned is
   whatever `amount <= 0` does not reject, which includes NaN and positive
   infinity alongside the positive finite amounts.
   */
  method GetAmountAsWritten(inputs: seq<Float>) returns (r: Option<Float>, used: nat)
    ensures used <= |inputs|
    ensures r.Some? ==> 0 < used && r.value == inputs[used - 1]
    ensures r.Some? ==> r.value == NaN || r.value == PositiveInfinity || (r.value.Finite? && r.value.value > 0.0)
    ensures forall k :: 0 <= k < used - 1 ==> AtMostZero(inputs[k])
    ensures r.None? ==> forall k :: 0 <= k < |inputs| ==> AtMostZero(inputs[k])
  {
    r, used := Reprompt(inputs, CheckAmountAsWritten);
  }

  /** get_category: the category finally returned is Income or Expense. */
  method GetCategory(lines: seq<string>) returns (r: Option<string>, used: nat)
    ensures used <= |lines|
    ensures r.Some? ==> 0 < used && (r.value == Income || r.value == Expense)
    ensures r.Some? ==> r == ValidateCategory(lines[used - 1])
    ensures forall k :: 0 <= k < used - 1 ==> ValidateCategory(lines[k]).None?
    ensures r.None? ==> forall k :: 0 <= k < |lines| ==> ValidateCategory(lines[k]).None?
  {
    r, used := Reprompt(lines, ValidateCategory);
  }
}

=== FILE: dateformat.dfy ===
/**
 The ledger's date text `%d-%m-%Y` (data_entry.py:3, main.py:10): `Parse` is
 `datetime.strptime(text, "%d-%m-%Y")` and `Format` is `strftime("%d-%m-%Y")`.

 strptime matches the whole text against the directive patterns
   %d: `3[01]|[12]\d|0[1-9]|[1-9]| [1-9]`    %m: `1[0-2]|0[1-9]|[1-9]`    %Y: `\d\d\d\d`
 joined by literal dashes, and then builds a `date`, which rejects a day past
 the end of its month and the year 0. None of the patterns contains a dash, so
 a text matches exactly when it splits at its dashes into three fields that
 match the patterns one by one.
 */
module DateFormat {
  import opened Wrappers
  import opened Calendar

  const Dash := '-'

  predicate IsDigit(c: char) {
    '0' <= c <= '9'
  }

  function DigitValue(c: char): (n: int)
    requires IsDigit(c)
    ensures 0 <= n <= 9
  {
    c as int - '0' as int
  }

  function DigitChar(n: int): (c: char)
    requires 0 <= n <= 9
    ensures IsDigit(c) && DigitValue(c) == n
  {
    ('0' as int + n) as char
  }

  /** Zero-padded two-digit spelling, as `%d` and `%m` print. */
  function Pad2(n: int): string
    requires 0 <= n <= 99
  {
    [DigitChar(n / 10), DigitChar(n % 10)]
  }

  /** Zero-padded four-digit spelling of a year. */
  function Pad4(n: int): string
    requires 0 <= n <= 9999
  {
    Pad2(n / 100) + Pad2(n % 100)
  }

  /** The canonical text of a day: `dd-mm-yyyy`. */
  function Format(d: Date): (s: string)
    requires ValidDate(d)
    ensures |s| == 10 && s[2] == Dash && s[5] == Dash
    ensures forall i :: 0 <= i < |s| && i != 2 && i != 5 ==> IsDigit(s[i])
  {
    Pad2(d.day) + [Dash] + Pad2(d.month) + [Dash] + Pad4(d.year)
  }

  /** The fields of `s` between its dashes. */
  function Split(s: string): (fields: seq<string>)
    ensures |fields| >= 1
    decreases |s|
  {
    if |s| == 0 then [""]
    else
      var rest := Split(s[1..]);
      if s[0] == Dash then [""] + rest
      else [[s[0]] + rest[0]] + rest[1..]
  }

  /** The fields put back together with dashes between them. */
  function Join(fields: seq<string>): string
    requires |fields| >= 1
    decreases |fields|
  {
    if |fields| == 1 then fields[0] else fields[0] + [Dash] + Join(fields[1..])
  }

  function TwoDigits(t: string): int
    requires |t| == 2 && IsDigit(t[0]) && IsDigit(t[1])
  {
    10 * DigitValue(t[0]) + DigitValue(t[1])
  }

  /** The `%d` directive: the value of a field matching `3[01]|[12]\d|0[1-9]|[1-9]| [1-9]`. */
  function DayField(t: string): Option<int> {
    if |t| == 1 && '1' <= t[0] <= '9' then Some(DigitValue(t[0]))
    else if |t| == 2 && t[0] == ' ' && '1' <= t[1] <= '9' then Some(DigitValue(t[1]))
    else if |t| == 2 && IsDigit(t[0]) && IsDigit(t[1]) && 1 <= TwoDigits(t) <= 31 then Some(TwoDigits(t))
    else None
  }

  /** The `%m` directive: the value of a field matching `1[0-2]|0[1-9]|[1-9]`. */
  function MonthField(t: string): Option<int> {
    if |t| == 1 && '1' <= t[0] <= '9' then Some(DigitValue(t[0]))
    else if |t| == 2 && IsDigit(t[0]) && IsDigit(t[1]) && 1 <= TwoDigits(t) <= 12 then Some(TwoDigits(t))
    else None
  }

  /** The `%Y` directive: the value of exactly four digits. */
  function YearField(t: string): Option<int> {
    if |t| == 4 && IsDigit(t[0]) && IsDigit(t[1]) && IsDigit(t[2]) && IsDigit(t[3]) then
      Some(100 * TwoDigits(t[..2]) + TwoDigits(t[2..]))
    else None
  }

  /** `datetime.strptime(s, "%d-%m-%Y")`: `None` where it raises ValueError. */
  function Parse(s: string): (r: Option<Date>)
    ensures r.Some? ==> ValidDate(r.value)
  {
    var f := Split(s);
    if |f| != 3 then None
    else
      match (DayField(f[0]), MonthField(f[1]), YearField(f[2]))
      case (Some(d), Some(m), Some(y)) =>
        if ValidDate(Date(y, m, d)) then Some(Date(y, m, d)) else None
      case _ => None
  }

  /** The spellings `%d` accepts for day `n`: two digits, and below 10 also one digit or space-digit. */
  function DaySpellings(n: int): set<string>
    requires 1 <= n <= 31
  {
    if n < 10 then {Pad2(n), [DigitChar(n)], [' ', DigitChar(n)]} else {Pad2(n)}
  }

  /** The spellings `%m` accepts for month `n`: two digits, and below 10 also one digit. */
  function MonthSpellings(n: int): set<string>
    requires 1 <= n <= 12
  {
    if n < 10 then {Pad2(n), [DigitChar(n)]} else {Pad2(n)}
  }

  /** Every text that names day `d` under `%d-%m-%Y`. */
  function Spellings(d: Date): set<string>
    requires ValidDate(d)
  {
    set t1, t2 | t1 in DaySpellings(d.day) && t2 in MonthSpellings(d.month)
      :: t1 + [Dash] + t2 + [Dash] + Pad4(d.year)
  }

  // ---------------------------------------------------------------- lemmas

  lemma {:induction false} SplitWithoutDash(t: string)
    requires Dash !in t
    ensures Split(t) == [t]
    decreases |t|
  {
    if |t| > 0 {
      assert Dash !in t[1..] by {
        forall i | 0 <= i < |t[1..]| ensures t[1..][i] != Dash {
          assert t[1..][i] == t[i + 1];
        }
      }
      SplitWithoutDash(t[1..]);
      assert [t[0]] + t[1..] == t;
    }
  }

  lemma {:induction false} SplitAtDash(a: string, rest: string)
    requires Dash !in a
    ensures Split(a + [Dash] + rest) == [a] + Split(rest)
    decreases |a|
  {
    var s := a + [Dash] + rest;
    if |a| == 0 {
      assert s[0] == Dash && s[1..] == rest;
    } else {
      assert s[0] == a[0];
      assert s[1..] == a[1..] + [Dash] + rest;
      assert Dash !in a[1..] by {
        forall i | 0 <= i < |a[1..]| ensures a[1..][i] != Dash {
          assert a[1..][i] == a[i + 1];
        }
      }
      SplitAtDash(a[1..], rest);
      assert [a[0]] + a[1..] == a;
    }
  }

  /** Three dash-free fields joined by dashes split back into those three fields. */
  lemma SplitThree(a: string, b: string, c: string)
    requires Dash !in a && Dash !in b && Dash !in c
    ensures Split(a + [Dash] + b + [Dash] + c) == [a, b, c]
  {
    assert a + [Dash] + b + [Dash] + c == a + [Dash] + (b + [Dash] + c);
    SplitAtDash(a, b + [Dash] + c);
    SplitAtDash(b, c);
    SplitWithoutDash(c);
  }

  /** Splitting loses nothing: joining the fields gives the text back. */
  lemma {:induction false} JoinSplit(s: string)
    ensures Join(Split(s)) == s
    decreases |s|
  {
    if |s| > 0 {
      var rest := Split(s[1..]);
      JoinSplit(s[1..]);
      if s[0] == Dash {
        assert Join([""] + rest) == "" + [Dash] + Join(rest) by {
          assert ([""] + rest)[1..] == rest;
        }
        assert [s[0]] + s[1..] == s;
      } else {
        var f := [[s[0]] + rest[0]] + rest[1..];
        if |rest| == 1 {
          assert [s[0]] + s[1..] == s;
        } else {
          assert f[1..] == rest[1..];
          assert Join(f) == [s[0]] + rest[0] + [Dash] + Join(rest[1..]);
          assert Join(rest) == rest[0] + [Dash] + Join(rest[1..]);
          assert [s[0]] + s[1..] == s;
        }
      }
    }
  }

  lemma TwoDigitsPad2(n: int)
    requires 0 <= n <= 99
    ensures TwoDigits(Pad2(n)) == n
  {
  }

  /** Each spelling of a day is read back as that day, and contains no dash. */
  lemma DaySpellingsRead(t: string, n: int)
    requires 1 <= n <= 31 && t in DaySpellings(n)
    ensures DayField(t) == Some(n) && Dash !in t
  {
    TwoDigitsPad2(n);
  }

  /** Each spelling of a month is read back as that month, and contains no dash. */
  lemma MonthSpellingsRead(t: string, n: int)
    requires 1 <= n <= 12 && t in MonthSpellings(n)
    ensures MonthField(t) == Some(n) && Dash !in t
  {
    TwoDigitsPad2(n);
  }

  /** The padded year is read back as that year, and contains no dash. */
  lemma Pad4Read(y: int)
    requires 0 <= y <= 9999
    ensures YearField(Pad4(y)) == Some(y) && Dash !in Pad4(y)
  {
    var t := Pad4(y);
    assert t[..2] == Pad2(y / 100) && t[2..] == Pad2(y % 100);
    TwoDigitsPad2(y / 100);
    TwoDigitsPad2(y % 100);
  }

  lemma Pad2TwoDigits(u: string)
    requires |u| == 2 && IsDigit(u[0]) && IsDigit(u[1])
    ensures Pad2(TwoDigits(u)) == u
  {
  }

  /** Every field `%d` accepts is one of the spellings of the day it reads. */
  lemma DayFieldSpelled(t: string)
    requires DayField(t).Some?
    ensures 1 <= DayField(t).value <= 31 && t in DaySpellings(DayField(t).value)
  {
    var n := DayField(t).value;
    if |t| == 1 {
      assert t == [DigitChar(n)];
    } else if t[0] == ' ' {
      assert t == [' ', DigitChar(n)];
    } else {
      assert t == Pad2(n);
    }
  }

  /** Every field `%m` accepts is one of the spellings of the month it reads. */
  lemma MonthFieldSpelled(t: string)
    requires MonthField(t).Some?
    ensures 1 <= MonthField(t).value <= 12 && t in MonthSpellings(MonthField(t).value)
  {
    var n := MonthField(t).value;
    if |t| == 1 {
      assert t == [DigitChar(n)];
    } else {
      assert t == Pad2(n);
    }
  }

  /** Every field `%Y` accepts is the padded spelling of the year it reads. */
  lemma YearFieldSpelled(t: string)
    requires YearField(t).Some?
    ensures 0 <= YearField(t).value <= 9999 && t == Pad4(YearField(t).value)
  {
    var hi, lo := TwoDigits(t[..2]), TwoDigits(t[2..]);
    var y := 100 * hi + lo;
    assert y / 100 == hi && y % 100 == lo;
    Pad2TwoDigits(t[..2]);
    Pad2TwoDigits(t[2..]);
    assert t == t[..2] + t[2..];
  }

  /**
   strptime accepts exactly the spellings of valid days: `Parse(s)` is day `d`
   if and only if `d` is a real calendar day and `s` is one of its spellings.
   */
  lemma ParseExactlySpellings(s: string, d: Date)
    ensures Parse(s) == Some(d) <==> ValidDate(d) && s in Spellings(d)
  {
    if Parse(s) == Some(d) {
      var f := Split(s);
      DayFieldSpelled(f[0]);
      MonthFieldSpelled(f[1]);
      YearFieldSpelled(f[2]);
      JoinSplit(s);
      assert Join(f) == f[0] + [Dash] + (f[1] + [Dash] + f[2]) by {
        assert f[1..][1..] == [f[2]];
        assert Join(f[1..][1..]) == f[2];
        assert Join(f[1..]) == f[1] + [Dash] + f[2];
      }
      assert s == f[0] + [Dash] + f[1] + [Dash] + f[2];
    }
    if ValidDate(d) && s in Spellings(d) {
      var t1, t2 :| t1 in DaySpellings(d.day) && t2 in MonthSpellings(d.month)
        && s == t1 + [Dash] + t2 + [Dash] + Pad4(d.year);
      DaySpellingsRead(t1, d.day);
      MonthSpellingsRead(t2, d.month);
      Pad4Read(d.year);
      SplitThree(t1, t2, Pad4(d.year));
    }
  }

  /** The canonical text is one of the spellings. */
  lemma FormatIsSpelling(d: Date)
    requires ValidDate(d)
    ensures Format(d) in Spellings(d)
  {
    var t1, t2 := Pad2(d.day), Pad2(d.month);
    assert t1 in DaySpellings(d.day) && t2 in MonthSpellings(d.month);
    assert Format(d) == t1 + [Dash] + t2 + [Dash] + Pad4(d.year);
  }

  /** Round trip: strptime reads back the day strftime wrote. */
  lemma ParseFormat(d: Date)
    requires ValidDate(d)
    ensures Parse(Format(d)) == Some(d)
  {
    FormatIsSpelling(d);
    ParseExactlySpellings(Format(d), d);
  }

  /** Corollary of `ParseFormat`: re-formatting an accepted text gives its canonical form, which reads as the same day. */
  lemma FormatParse(s: string)
    requires Parse(s).Some?
    ensures Parse(Format(Parse(s).value)) == Parse(s)
  {
    ParseFormat(Parse(s).value);
  }

  /** The empty text is never a date. */
  lemma ParseEmpty()
    ensures Parse("") == None
  {
  }
  /** Python's comparison of two texts: code point by code point, a prefix first. */
  predicate TextLessEq(a: string, b: string)
    decreases |a|
  {
    || |a| == 0
    || (|b| > 0 && (a[0] < b[0] || (a[0] == b[0] && TextLessEq(a[1..], b[1..]))))
  }

  /**
   Why main.py:44-46 converts the stored texts before comparing them: the text
   order of `dd-mm-yyyy` is not the order of days. 2 January 2024 comes before
   1 February 2024, yet its text sorts after.
   */
  lemma TextOrderIsNotChronological()
    ensures var a, b := Date(2024, 1, 2), Date(2024, 2, 1);
      ValidDate(a) && ValidDate(b) && LessEq(a, b) && !TextLessEq(Format(a), Format(b))
  {
    var a, b := Date(2024, 1, 2), Date(2024, 2, 1);
    assert Format(a)[0] == '0' && Format(a)[1] == '2';
    assert Format(b)[0] == '0' && Format(b)[1] == '1';
  }
}

=== FILE: ledger.dfy ===
/**
 The ledger store (class CSV in main.py): the file `finance_data.csv` as a
 sequence of transaction records, the two ways of writing it, and the
 date-range query with its income, expense and net-savings summary.

 Deliberate divergence: main.py:44 reads the column `df["Date"]`, but the
 header written at main.py:9 and main.py:18 names it `date`, so the query as
 written raises KeyError on every ledger. The model filters on the `date`
 column, which is evidently what the code means.
 */
module Ledger {
  import opened Wrappers
  import opened Calendar
  import opened DateFormat
  import opened DataEntry
  import opened Seqs

  /** COLUMN_NAMES: the header line `initialize_csv` writes. */
  const ColumnNames := ["date", "amount", "category", "description"]

  /** One row of the ledger, its fields as `add_entry` writes them. */
  datatype Transaction = Transaction(date: string, amount: real, category: string, description: string)

  /**
   The ledger file. `Headed` is a file that starts with the header line
   `ColumnNames`;
   `Headerless` is one that `add_entry` created on its own (append mode creates
   the file but writes no header).
   */
  datatype Store = Missing | Headed(records: seq<Transaction>) | Headerless(records: seq<Transaction>)

  /** The records in the file; none when there is no file. */
  function Records(s: Store): seq<Transaction> {
    if s.Missing? then [] else s.records
  }

  /** A record as the prompts produce it: a canonical date, a positive amount, a known category. */
  predicate WellFormed(t: Transaction) {
    && Parse(t.date).Some?
    && Format(Parse(t.date).value) == t.date
    && t.amount > 0.0
    && (t.category == Income || t.category == Expense)
  }

  predicate WellFormedStore(s: Store) {
    forall i :: 0 <= i < |Records(s)| ==> WellFormed(Records(s)[i])
  }

  // ---------------------------------------------------------------- writing

  /** initialize_csv (main.py:14-19): create an empty ledger with its header, only when there is no file. */
  function InitializeCsv(s: Store): (r: Store)
    ensures !r.Missing? && Records(r) == Records(s)
    ensures s.Missing? ==> r == Headed([])
    ensures !s.Missing? ==> r == s
  {
    if s.Missing? then Headed([]) else s
  }

  /** Initializing twice is initializing once. */
  lemma InitializeIdempotent(s: Store)
    ensures InitializeCsv(InitializeCsv(s)) == InitializeCsv(s)
  {
  }

  /** add_entry (main.py:22-36): append exactly one record, leaving the ones before it untouched. */
  function AddEntry(s: Store, t: Transaction): (r: Store)
    ensures Records(r) == Records(s) + [t]
    ensures |Records(r)| == |Records(s)| + 1 && Records(r)[|Records(s)|] == t
    ensures forall i :: 0 <= i < |Records(s)| ==> Records(r)[i] == Records(s)[i]
    ensures r.Headed? <==> s.Headed?
  {
    match s
    case Missing => Headerless([t])
    case Headed(rs) => Headed(rs + [t])
    case Headerless(rs) => Headerless(rs + [t])
  }

  /**
   add (main.py:76-82) with the prompted values in hand: initialize, then
   append. Unless the file had lost its header already, the result is a
   headed ledger holding the old records followed by the new one, even when
   there was no file before.
   */
  function Add(s: Store, t: Transaction): (r: Store)
    ensures !s.Headerless? ==> r == Headed(Records(s) + [t])
    ensures s.Headerless? ==> r == Headerless(s.records + [t])
  {
    AddEntry(InitializeCsv(s), t)
  }

  /**
   add (main.py:74-82) with its prompts: the ledger is initialized first;
   then the date (today allowed as default), amount and category are prompted
   for and the entry is appended. Each field is the first input its prompt
   accepts; `dateRead`, `amountRead` and `categoryRead` count the inputs each
   prompt read. When some prompt never receives an acceptable input, nothing
   is appended.
   */
  method AddFromPrompts(s: Store, dateLines: seq<string>, amounts: seq<Float>, categoryLines: seq<string>,
                        description: string, today: Date)
    returns (r: Store, added: Option<Transaction>, dateRead: nat, amountRead: nat, categoryRead: nat)
    requires ValidDate(today)
    ensures added.None? ==> r == InitializeCsv(s)
    ensures added.Some? ==> r == Add(s, added.value)
    ensures added.Some? ==> WellFormed(added.value) && added.value.description == description
    ensures added.Some? ==>
      && 0 < dateRead <= |dateLines|
      && Some(added.value.date) == ValidateDate(dateLines[dateRead - 1], true, today)
      && (forall k :: 0 <= k < dateRead - 1 ==> ValidateDate(dateLines[k], true, today).None?)
    ensures added.Some? ==>
      && 0 < amountRead <= |amounts|
      && amounts[amountRead - 1] == Finite(added.value.amount)
      && (forall k :: 0 <= k < amountRead - 1 ==> ValidateAmount(amounts[k]).None?)
    ensures added.Some? ==>
      && 0 < categoryRead <= |categoryLines|
      && Some(added.value.category) == ValidateCategory(categoryLines[categoryRead - 1])
      && (forall k :: 0 <= k < categoryRead - 1 ==> ValidateCategory(categoryLines[k]).None?)
    ensures added.None? <==>
      || (forall k :: 0 <= k < |dateLines| ==> ValidateDate(dateLines[k], true, today).None?)
      || (forall k :: 0 <= k < |amounts| ==> ValidateAmount(amounts[k]).None?)
      || (forall k :: 0 <= k < |categoryLines| ==> ValidateCategory(categoryLines[k]).None?)
    ensures WellFormedStore(s) ==> WellFormedStore(r)
  {
    r := InitializeCsv(s);
    added := None;
    var date, amount, category;
    date, dateRead := GetDate(dateLines, true, today);
    amount, amountRead := GetAmount(amounts);
    category, categoryRead := GetCategory(categoryLines);
    if date.Some? && amount.Some? && category.Some? {
      var t := Transaction(date.value, amount.value, category.value, description);
      r := AddEntry(r, t);
      added := Some(t);
    }
  }

  // ---------------------------------------------------------------- querying

  /**
   Why the query raises: no file, no header line, a stored date that does not
   convert to a Timestamp (main.py:44), or a bound that does not parse (main.py:45-46).
   */
  datatype QueryError = FileNotFound | NoHeader | BadStoredDate | BadStartDate | BadEndDate

  datatype Summary = Summary(income: real, expense: real, net: real)

  /** What get_transactions produces: the selected rows and, when there are any, the printed summary. */
  datatype Report = Report(records: seq<Transaction>, summary: Option<Summary>)

  /**
   The first and last days a pandas nanosecond Timestamp can hold at midnight:
   the representable instants run from 1677-09-21 00:12:43 to 2262-04-11 23:47:16.
   */
  const TimestampMin := Date(1677, 9, 22)
  const TimestampMax := Date(2262, 4, 11)

  /**
   `pd.to_datetime(..., format="%d-%m-%Y")` (main.py:44) converts the stored
   text: it must parse, and its day must fit a nanosecond Timestamp, else
   pandas raises ValueError or OutOfBoundsDatetime.
   */
  predicate Converts(text: string) {
    match Parse(text)
    case Some(d) => LessEq(TimestampMin, d) && LessEq(d, TimestampMax)
    case None => false
  }

  /** Every stored date converts; otherwise the whole query raises. */
  predicate DatesConvert(rs: seq<Transaction>) {
    forall i :: 0 <= i < |rs| ==> Converts(rs[i].date)
  }

  function DateOf(t: Transaction): Date
    requires Parse(t.date).Some?
  {
    Parse(t.date).value
  }

  /** The mask of main.py:48: start <= date <= end, comparing days. */
  predicate InRange(t: Transaction, start: Date, end: Date) {
    match Parse(t.date)
    case Some(d) => LessEq(start, d) && LessEq(d, end)
    case None => false
  }

  function Within(start: Date, end: Date): Transaction -> bool {
    (t: Transaction) => InRange(t, start, end)
  }

  function OfCategory(c: string): Transaction -> bool {
    (t: Transaction) => t.category == c
  }

  /** The `amount` column summed, as pandas `.sum()` does. */
  function SumAmounts(rs: seq<Transaction>): real
    decreases |rs|
  {
    if |rs| == 0 then 0.0 else SumAmounts(rs[..|rs| - 1]) + rs[|rs| - 1].amount
  }

  /** The sum of the amounts of the rows whose category is `c` (main.py:63-64). */
  function Total(rs: seq<Transaction>, c: string): real {
    SumAmounts(Filter(rs, OfCategory(c)))
  }

  /** Total income, total expense and net savings (main.py:63-68). */
  function Summarize(rs: seq<Transaction>): Summary {
    var income := Total(rs, Income);
    var expense := Total(rs, Expense);
    Summary(income, expense, income - expense)
  }

  /**
   get_transactions (main.py:41-69): read the ledger, convert the stored dates,
   parse the bounds, keep the rows in range and summarize them when there are
   any. Errors are reported in the order the source would raise them.
   */
  function GetTransactions(s: Store, startText: string, endText: string): (r: Result<Report, QueryError>)
    ensures r.Success? <==> s.Headed? && DatesConvert(s.records) && Parse(startText).Some? && Parse(endText).Some?
    ensures s.Missing? ==> r == Failure(FileNotFound)
    ensures r.Success? ==> |r.value.records| <= |s.records|
    ensures r.Success? ==> (r.value.summary.None? <==> r.value.records == [])
  {
    match s
    case Missing => Failure(FileNotFound)
    case Headerless(_) => Failure(NoHeader)
    case Headed(rs) =>
      if !DatesConvert(rs) then Failure(BadStoredDate)
      else
        match Parse(startText)
        case None => Failure(BadStartDate)
        case Some(start) =>
          match Parse(endText)
          case None => Failure(BadEndDate)
          case Some(end) =>
            var selected := Filter(rs, Within(start, end));
            Success(Report(selected, if |selected| == 0 then None else Some(Summarize(selected))))
  }

  // ---------------------------------------------------------------- query lemmas

  /** The range test compares days chronologically, by their day numbers. */
  lemma InRangeIsChronological(t: Transaction, start: Date, end: Date)
    requires Parse(t.date).Some? && ValidDate(start) && ValidDate(end)
    ensures InRange(t, start, end) <==> Ordinal(start) <= Ordinal(DateOf(t)) <= Ordinal(end)
  {
    LessEqIsChronological(start, DateOf(t));
    LessEqIsChronological(DateOf(t), end);
  }

  /**
   The query returns exactly the stored rows whose day lies in [start, end],
   both ends included, in their stored order; its summary is that of those rows.
   */
  lemma QueryReturnsRange(rs: seq<Transaction>, startText: string, endText: string, start: Date, end: Date)
    requires DatesConvert(rs) && Parse(startText) == Some(start) && Parse(endText) == Some(end)
    ensures var q := GetTransactions(Headed(rs), startText, endText);
      var idx := FilterIndices(rs, Within(start, end));
      && q.Success?
      && SubsequenceAt(q.value.records, rs, idx)
      && (forall i :: 0 <= i < |rs| ==>
            (i in idx <==> LessEq(start, DateOf(rs[i])) && LessEq(DateOf(rs[i]), end)))
      && (q.value.records != [] ==> q.value.summary == Some(Summarize(q.value.records)))
  {
    var keep := Within(start, end);
    var selected := Filter(rs, keep);
    assert GetTransactions(Headed(rs), startText, endText)
      == Success(Report(selected, if |selected| == 0 then None else Some(Summarize(selected))));
    FilterExact(rs, keep);
    forall i | 0 <= i < |rs|
      ensures keep(rs[i]) <==> LessEq(start, DateOf(rs[i])) && LessEq(DateOf(rs[i]), end)
    {
    }
  }

  /** Membership form: a row is returned exactly when it is stored and its day is in range. */
  lemma QueryMembership(rs: seq<Transaction>, startText: string, endText: string, t: Transaction)
    requires DatesConvert(rs) && Parse(startText).Some? && Parse(endText).Some?
    ensures var q := GetTransactions(Headed(rs), startText, endText);
      q.Success? && (t in q.value.records <==> t in rs && InRange(t, Parse(startText).value, Parse(endText).value))
  {
    FilterMembership(rs, Within(Parse(startText).value, Parse(endText).value), t);
  }

  /** A range whose start is after its end selects nothing, and nothing is summarized. */
  lemma QueryEmptyRange(rs: seq<Transaction>, startText: string, endText: string)
    requires DatesConvert(rs) && Parse(startText).Some? && Parse(endText).Some?
    requires !LessEq(Parse(startText).value, Parse(endText).value)
    ensures GetTransactions(Headed(rs), startText, endText) == Success(Report([], None))
  {
    var start, end := Parse(startText).value, Parse(endText).value;
    forall i | 0 <= i < |rs| ensures !Within(start, end)(rs[i]) {
      if InRange(rs[i], start, end) {
        LessEqTransitive(start, DateOf(rs[i]), end);
      }
    }
    FilterNone(rs, Within(start, end));
  }

  /** The canonical texts of two days always parse, so querying a fresh ledger returns nothing. */
  lemma QueryFreshLedger(start: Date, end: Date)
    requires ValidDate(start) && ValidDate(end)
    ensures GetTransactions(InitializeCsv(Missing), Format(start), Format(end)) == Success(Report([], None))
  {
    ParseFormat(start);
    ParseFormat(end);
  }

  /**
   Appending a record and then querying any range that covers its day returns
   the rows the range selected before, followed by the new record.
   */
  lemma AddThenQuery(s: Store, t: Transaction, start: Date, end: Date)
    requires !s.Headerless? && DatesConvert(Records(s)) && Converts(t.date)
    requires ValidDate(start) && ValidDate(end)
    requires LessEq(start, DateOf(t)) && LessEq(DateOf(t), end)
    ensures var q := GetTransactions(Add(s, t), Format(start), Format(end));
      && q.Success?
      && q.value.records == Filter(Records(s), Within(start, end)) + [t]
      && t in q.value.records
  {
    ParseFormat(start);
    ParseFormat(end);
    var rs := Records(s);
    assert DatesConvert(rs + [t]) by {
      forall i | 0 <= i < |rs + [t]| ensures Converts((rs + [t])[i].date) {
        if i < |rs| {
          assert (rs + [t])[i] == rs[i];
        }
      }
    }
    FilterSnoc(rs, t, Within(start, end));
  }

  /**
   A day the date prompt accepts but a nanosecond Timestamp cannot hold: once
   `add` has stored it, every query of the ledger fails.
   */
  lemma QueryFailsBeyondTimestamps(rs: seq<Transaction>, amount: real, category: string, description: string,
                                   startText: string, endText: string)
    ensures var t := Transaction(Format(Date(3000, 1, 1)), amount, category, description);
      GetTransactions(Add(Headed(rs), t), startText, endText) == Failure(BadStoredDate)
  {
    var d := Date(3000, 1, 1);
    var t := Transaction(Format(d), amount, category, description);
    ParseFormat(d);
    assert !Converts(t.date);
    assert (rs + [t])[|rs|] == t;
  }

  /** A record appended without initializing first lands in a file with no header, which the query cannot read. */
  lemma AddEntryWithoutInitialize(t: Transaction, startText: string, endText: string)
    ensures AddEntry(Missing, t) == Headerless([t])
    ensures GetTransactions(AddEntry(Missing, t), startText, endText) == Failure(NoHeader)
  {
  }

  // ---------------------------------------------------------------- summary lemmas

  /** Independent definition of a category total: every row adds its amount if it has category `c`, else zero. */
  function CategorySum(rs: seq<Transaction>, c: string): real
    decreases |rs|
  {
    if |rs| == 0 then 0.0
    else CategorySum(rs[1..], c) + (if rs[0].category == c then rs[0].amount else 0.0)
  }

  /** Independent definition of net savings: Income rows add, Expense rows subtract, others add nothing. */
  function SignedSum(rs: seq<Transaction>): real
    decreases |rs|
  {
    if |rs| == 0 then 0.0
    else
      SignedSum(rs[1..])
      + (if rs[0].category == Income then rs[0].amount
         else if rs[0].category == Expense then -rs[0].amount
         else 0.0)
  }

  lemma SumAmountsSnoc(rs: seq<Transaction>, t: Transaction)
    ensures SumAmounts(rs + [t]) == SumAmounts(rs) + t.amount
  {
    assert (rs + [t])[..|rs|] == rs;
  }

  lemma {:induction false} CategorySumSnoc(rs: seq<Transaction>, t: Transaction, c: string)
    ensures CategorySum(rs + [t], c) == CategorySum(rs, c) + (if t.category == c then t.amount else 0.0)
    decreases |rs|
  {
    if |rs| > 0 {
      assert (rs + [t])[1..] == rs[1..] + [t];
      CategorySumSnoc(rs[1..], t, c);
    }
  }

  /** Filtering a category and summing its amounts is the category sum over all rows. */
  lemma {:induction false} TotalIsCategorySum(rs: seq<Transaction>, c: string)
    ensures Total(rs, c) == CategorySum(rs, c)
    decreases |rs|
  {
    if |rs| > 0 {
      var init, t := rs[..|rs| - 1], rs[|rs| - 1];
      assert rs == init + [t];
      TotalIsCategorySum(init, c);
      FilterSnoc(init, t, OfCategory(c));
      if t.category == c {
        SumAmountsSnoc(Filter(init, OfCategory(c)), t);
      }
      CategorySumSnoc(init, t, c);
    }
  }

  lemma {:induction false} SignedSumSplits(rs: seq<Transaction>)
    ensures SignedSum(rs) == CategorySum(rs, Income) - CategorySum(rs, Expense)
    decreases |rs|
  {
    if |rs| > 0 {
      SignedSumSplits(rs[1..]);
    }
  }

  /** Net savings is income minus expense, i.e. every Income row added and every Expense row subtracted. */
  lemma NetIsSignedSum(rs: seq<Transaction>)
    ensures Summarize(rs).net == Summarize(rs).income - Summarize(rs).expense
    ensures Summarize(rs).net == SignedSum(rs)
  {
    TotalIsCategorySum(rs, Income);
    TotalIsCategorySum(rs, Expense);
    SignedSumSplits(rs);
  }

  /**
   The effect of one more row on the summary: an Income row raises income and
   net by its amount, an Expense row raises expense and lowers net by it, and
   a row of any other category changes nothing.
   */
  lemma SummarizeSnoc(rs: seq<Transaction>, t: Transaction)
    ensures var before, after := Summarize(rs), Summarize(rs + [t]);
      && (t.category == Income ==> after == Summary(before.income + t.amount, before.expense, before.net + t.amount))
      && (t.category == Expense ==> after == Summary(before.income, before.expense + t.amount, before.net - t.amount))
      && (t.category != Income && t.category != Expense ==> after == before)
  {
    TotalIsCategorySum(rs, Income);
    TotalIsCategorySum(rs, Expense);
    TotalIsCategorySum(rs + [t], Income);
    TotalIsCategorySum(rs + [t], Expense);
    CategorySumSnoc(rs, t, Income);
    CategorySumSnoc(rs, t, Expense);
  }

  lemma {:induction false} CategorySumNonNegative(rs: seq<Transaction>, c: string)
    requires forall i :: 0 <= i < |rs| ==> rs[i].amount > 0.0
    ensures CategorySum(rs, c) >= 0.0
    decreases |rs|
  {
    if |rs| > 0 {
      CategorySumNonNegative(rs[1..], c);
    }
  }

  /** With every amount positive, as the amount prompt guarantees, both totals are at least zero. */
  lemma TotalsNonNegative(rs: seq<Transaction>)
    requires forall i :: 0 <= i < |rs| ==> rs[i].amount > 0.0
    ensures Summarize(rs).income >= 0.0 && Summarize(rs).expense >= 0.0
  {
    TotalIsCategorySum(rs, Income);
    TotalIsCategorySum(rs, Expense);
    CategorySumNonNegative(rs, Income);
    CategorySumNonNegative(rs, Expense);
  }
}

=== FILE: seqs.dfy ===
/** Order-preserving selection from a sequence, the shape of a pandas boolean mask. */
module Seqs {

  /** The elements of `s` that `keep` accepts, in their original order. */
  function Filter<T>(s: seq<T>, keep: T -> bool): (r: seq<T>)
    ensures |r| <= |s|
    ensures forall k :: 0 <= k < |r| ==> keep(r[k])
    decreases |s|
  {
    if |s| == 0 then []
    else
      var init := Filter(s[..|s| - 1], keep);
      if keep(s[|s| - 1]) then init + [s[|s| - 1]] else init
  }

  /** The positions of `s` that `keep` accepts, in increasing order. */
  function FilterIndices<T>(s: seq<T>, keep: T -> bool): seq<nat>
    decreases |s|
  {
    if |s| == 0 then []
    else
      var init := FilterIndices(s[..|s| - 1], keep);
      if keep(s[|s| - 1]) then init + [|s| - 1] else init
  }

  /** `r` is `s` read at the strictly increasing positions `idx`. */
  ghost predicate SubsequenceAt<T>(r: seq<T>, s: seq<T>, idx: seq<nat>) {
    && |idx| == |r|
    && (forall k :: 0 <= k < |idx| ==> idx[k] < |s| && r[k] == s[idx[k]])
    && (forall k, l :: 0 <= k < l < |idx| ==> idx[k] < idx[l])
  }

  /** Filtering a sequence with one more element at the end. */
  lemma FilterSnoc<T>(s: seq<T>, x: T, keep: T -> bool)
    ensures Filter(s + [x], keep) == Filter(s, keep) + (if keep(x) then [x] else [])
    ensures FilterIndices(s + [x], keep) == FilterIndices(s, keep) + (if keep(x) then [|s|] else [])
  {
    assert (s + [x])[..|s|] == s;
  }

  /**
   `Filter` keeps exactly the accepted elements, in order: it is `s` read at the
   increasing positions `FilterIndices`, and a position appears there exactly
   when `keep` accepts the element at it.
   */
  lemma {:induction false} FilterExact<T>(s: seq<T>, keep: T -> bool)
    ensures SubsequenceAt(Filter(s, keep), s, FilterIndices(s, keep))
    ensures forall i :: 0 <= i < |s| ==> (keep(s[i]) <==> i in FilterIndices(s, keep))
    ensures forall k :: 0 <= k < |FilterIndices(s, keep)| ==> FilterIndices(s, keep)[k] < |s|
    decreases |s|
  {
    if |s| > 0 {
      var init := s[..|s| - 1];
      var x := s[|s| - 1];
      assert s == init + [x];
      FilterExact(init, keep);
      FilterSnoc(init, x, keep);
    }
  }

  /** Membership: an element survives the filter exactly when it is in `s` and accepted. */
  lemma FilterMembership<T>(s: seq<T>, keep: T -> bool, x: T)
    ensures x in Filter(s, keep) <==> x in s && keep(x)
  {
    FilterExact(s, keep);
    var r, idx := Filter(s, keep), FilterIndices(s, keep);
    if x in r {
      var k :| 0 <= k < |r| && r[k] == x;
      assert s[idx[k]] == x;
    }
    if x in s && keep(x) {
      var i :| 0 <= i < |s| && s[i] == x;
      assert i in idx;
      var k :| 0 <= k < |idx| && idx[k] == i;
      assert r[k] == x;
    }
  }

  /** Nothing survives when no element is accepted. */
  lemma {:induction false} FilterNone<T>(s: seq<T>, keep: T -> bool)
    requires forall i :: 0 <= i < |s| ==> !keep(s[i])
    ensures Filter(s, keep) == []
    decreases |s|
  {
    if |s| > 0 {
      FilterNone(s[..|s| - 1], keep);
    }
  }
}

=== FILE: wrappers.dfy ===
/** Failure-carrying values used in place of the source's exceptions and re-prompts. */
module Wrappers {

  /** A value that may be absent: `None` stands for input a validator rejects. */
  datatype Option<+T> = None | Some(value: T)

  /** A value or the error the source would raise instead. */
  datatype Result<+R, +E> = Success(value: R) | Failure(error: E)
}
